=== FILE: README.md ===
# Link shortener front end — a Dafny model of its state rules

The front end of the link shortener is a React page over a REST API. Around the network calls it
keeps a few pure rules. This project models those rules as immutable datatypes and pure functions,
and proves properties about them:

- **List panel** (`UrlList.tsx`).
  - The search filter matches a case-insensitive substring of either URL.
  - The sort uses four keys. The click count is parsed with `parseInt`, and a count that does not
    parse counts as 0. An expiration is a timestamp, and a missing one means "never". The two URL
    fields are ordered by `localeCompare`.
  - Choosing a sort key toggles the direction.
  - The Previous/Next buttons move between pages and the Next button can be disabled.
- **Main page** (`App.tsx`).
  - The action log keeps five entries, newest first.
  - The estimated page count is updated after every list fetch.
  - The create-request body is built from the form fields.
  - Every response gets a three-way dispatch: 429, 2xx, or anything else.
  - A successful create or delete changes the form and page state.
  - `App.Event`, `App.Apply` and `App.Run` replay the page as a state machine over user actions
    and responses. `App.Apply` takes one event; `App.Run` only folds it over a sequence. Lemmas
    about them prove that the page index always stays inside the estimated page range and that the
    log stays bounded.

Layout: `wrappers.dfy` (Option/Result), `seqs.dfy` (Min/Max/Reverse/subsequence),
`strings.dfy` (lower-casing, `includes`, number rendering), `sorting.dfy` (the comparator sort),
`host.dfy` (platform functions as parameters), `url_list.dfy`, `app.dfy`.

Platform functions are fields of `Host.Env` and are never given a definition:
- `localeCompare`;
- `parseInt` (a `None` result stands for `NaN`);
- `new Date(…).getTime()`;
- the `BASE_FRONTEND_URL` constant.

Where a property depends on one of them, the lemma says what it needs. The string-key order, for
example, needs `localeCompare` to be a total preorder (`Sorting.Consistent`).

Three behaviours of the source worth noting, all modelled as written:
- A successful delete does not remove the row locally. It resets the page to 0 and fetches the list
  again.
- Only the create call tries to read a JSON `error` field from an error body. The list and delete
  calls show the status and the raw text.
- The list fetch reports a `JSON.parse` failure of a 2xx body as a fetch error, and this model
  does the same.

## Model

| member | source | states |
|---|---|---|
| `App.LogAction` | frontend/src/App.tsx:61-68 | the new entry is at index 0, the log has min(old length + 1, 5) entries, and the rest is exactly the first min(4, old length) old entries in their order |
| `App.LogAllKeepsNewest` | frontend/src/App.tsx:55-69 | after any run of logged actions the log is the newest entries, newest first, followed by what remains of the earlier log, cut to five |
| `App.EstimateTotalPages` | frontend/src/App.tsx:92-95 | a short page makes the estimate exactly current page + 1; a full page makes it at least current page + 2 and never below the previous estimate, equal to one of the two |
| `App.EstimateDrivesNextButton` | frontend/src/App.tsx:92-95 | after a fetch, the Next button is disabled exactly when the fetched page had fewer than 10 records |
| `App.BuildCreationRequest` | frontend/src/App.tsx:115-119 | the url passes through; an empty ttl gives a null ttlMinute, otherwise the parsed ttl (NaN serialises as null); the alias is null exactly when it is empty |
| `App.AliasRoundTrip` | frontend/src/App.tsx:118 | a non-empty alias is sent unchanged: reading the alias field back (null as empty) gives the form value |
| `App.Classify` | frontend/src/App.tsx:83-100 | 429 is rate-limited, 200..299 is success, every other status is a failure; each class holds in both directions |
| `App.HandleGetAll` | frontend/src/App.tsx:71-109 | exactly one log entry; a 2xx response with a parsed body replaces the list and updates the estimate, leaving the message alone; a 429, another status, a body that is not JSON or a network failure changes only the message and log, with the source's message and log texts |
| `App.ShortenErrorMessage` | frontend/src/App.tsx:144-153 | an error body that is not JSON shows status and text; a JSON body shows its non-empty `error` field, or else the raw text |
| `App.HandleShorten` | frontend/src/App.tsx:111-164 | a refetch follows exactly on 2xx; success sets the short link to base + "/redirect/" + the response text, clears url/ttl/alias, resets the page to 0 and keeps the list; 429, other statuses and network failures change only the message and log, with the source's message and log texts |
| `App.HandleDelete` | frontend/src/App.tsx:166-202 | a refetch follows exactly on 2xx; success resets the page to 0 and changes nothing else but the message and log; 429, other statuses and network failures change only the message and log, with the source's message and log texts |
| `App.InitialSatisfiesInv` | frontend/src/App.tsx:35-41 | the initial page (page 0 of 1, empty log) satisfies the page-range and log-bound invariant |
| `App.Apply` | frontend/src/App.tsx:267-299 | typing into the form (its setters) changes only the url, ttl and alias fields; the paging buttons (through `setCurrentPage`) change only the page, to the Next/Previous result; responses go to their handlers |
| `App.ApplyPreservesInv` | frontend/src/App.tsx:92-94 | every event (form edit, fetch, create, delete, Next, Previous) keeps 0 <= page < estimated pages and at most five log entries |
| `App.RunPreservesInv` | frontend/src/App.tsx:39-41 | every state reached from a valid state by any sequence of events satisfies the invariant |
| `UrlList.Matches` | frontend/src/components/UrlList/UrlList.tsx:122-124 | a record matches exactly when the lower-cased term occurs at some index of the lower-cased original URL or of the lower-cased short URL |
| `UrlList.Filter` | frontend/src/components/UrlList/UrlList.tsx:121-125 | the result is a subsequence of the input; a record appears in it exactly when it is in the input and one of its URLs contains the search term ignoring case |
| `UrlList.FilterCount` | frontend/src/components/UrlList/UrlList.tsx:121-125 | a matching record is kept as many times as it occurs in the input, a non-matching one not at all |
| `UrlList.FilterEmptyTerm` | frontend/src/components/UrlList/UrlList.tsx:121-125 | an empty search term keeps every record in order |
| `UrlList.FilterIgnoresTermCase` | frontend/src/components/UrlList/UrlList.tsx:123-124 | search terms that differ only in letter case select the same records |
| `UrlList.ClickValue` | frontend/src/components/UrlList/UrlList.tsx:131-132 | the sort value of a click count is its parsed integer, or 0 when it does not parse |
| `UrlList.ExpiryOf` | frontend/src/components/UrlList/UrlList.tsx:136-137 | a record has no expiry ("never", sorting as Infinity) exactly when its expiration is empty; otherwise its instant is the parsed time |
| `UrlList.InstantDiff` | frontend/src/components/UrlList/UrlList.tsx:136-138 | the expiration difference is non-positive exactly when the second instant is "never" or both are dated and the first is not later |
| `UrlList.Compare` | frontend/src/components/UrlList/UrlList.tsx:127-143 | a non-positive answer means: click counts in the chosen direction; empty expirations after dated ones ascending and before them descending, dated ones by time; URL fields in `localeCompare` order, reversed descending |
| `UrlList.View` | frontend/src/components/UrlList/UrlList.tsx:120-144 | the displayed list is a permutation of the filtered records: the same records with the same multiplicities |
| `UrlList.DescendingIsReverse` | frontend/src/components/UrlList/UrlList.tsx:127-143 | for every key, the descending comparator is the ascending one with its arguments swapped |
| `UrlList.ComparatorConsistent` | frontend/src/components/UrlList/UrlList.tsx:127-143 | the click-count and expiration comparators are always total preorders; the URL comparators are when `localeCompare` is |
| `UrlList.ViewSorted` | frontend/src/components/UrlList/UrlList.tsx:127-143 | the displayed list is sorted by the comparator of the current selection |
| `UrlList.ViewClickCountOrder` | frontend/src/components/UrlList/UrlList.tsx:130-134 | sorted by click count, parsed counts (non-numeric as 0) are non-decreasing ascending and non-increasing descending |
| `UrlList.ExpiryPairOrdered` | frontend/src/components/UrlList/UrlList.tsx:135-139 | a pair the expiration comparator accepts has no "never" before a dated record when ascending, the reverse when descending, and dated records in time order |
| `UrlList.ViewExpirationOrder` | frontend/src/components/UrlList/UrlList.tsx:135-139 | sorted by expiration, records without one come after all dated records ascending and before them descending; dated records are in time order |
| `UrlList.ViewTextOrder` | frontend/src/components/UrlList/UrlList.tsx:140-142 | sorted by a URL field, the fields are in `localeCompare` order ascending and in the reverse order descending |
| `UrlList.ClickCountExample` | frontend/src/components/UrlList/UrlList.tsx:130-134 | records with counts "5" and "x" sorted ascending by count put the "x" record (0) first |
| `UrlList.HandleSort` | frontend/src/components/UrlList/UrlList.tsx:103-110 | the chosen key becomes active; reselecting the active key flips the direction, another key starts ascending |
| `UrlList.HandleSortTwiceRestores` | frontend/src/components/UrlList/UrlList.tsx:103-110 | reselecting the active key twice restores the original selection |
| `UrlList.HandleSortCycle` | frontend/src/components/UrlList/UrlList.tsx:103-110 | choosing a new key gives it ascending, and choosing it twice more returns to that same ascending selection |
| `UrlList.PrevPage` | frontend/src/components/UrlList/UrlList.tsx:112-114 | the previous page is one less, never negative |
| `UrlList.NextPage` | frontend/src/components/UrlList/UrlList.tsx:116-118 | the next page is never above estimated pages - 1 and is exactly one more when the current page is below that |
| `UrlList.PrevDisabled` | frontend/src/components/UrlList/UrlList.tsx:268 | the Previous button is disabled exactly when pressing it would leave the page where it is |
| `UrlList.NextDisabled` | frontend/src/components/UrlList/UrlList.tsx:279 | the Next button is disabled exactly when pressing it would not advance the page |
| `UrlList.NextEnabledAdvancesByOne` | frontend/src/components/UrlList/UrlList.tsx:116-118 | whenever the Next button is enabled, pressing it advances by exactly one page |
| `UrlList.PagingStaysInRange` | frontend/src/components/UrlList/UrlList.tsx:112-118 | from a page inside the estimated range both buttons lead to a page inside it |
| `Sorting.Insert` | frontend/src/components/UrlList/UrlList.tsx:127 | insertion adds exactly the new element to the multiset of elements |
| `Sorting.Sort` | frontend/src/components/UrlList/UrlList.tsx:127 | the sorted copy is a permutation of its input |
| `Sorting.InsertSorted` | frontend/src/components/UrlList/UrlList.tsx:127 | inserting into a sorted sequence under a consistent comparator keeps it sorted |
| `Sorting.SortSorted` | frontend/src/components/UrlList/UrlList.tsx:127 | under a consistent comparator the sorted copy is ordered by it |
| `Strings.Lower` | frontend/src/components/UrlList/UrlList.tsx:123-124 | lower-casing keeps the length, maps each character on its own and leaves no upper-case ASCII letter |
| `Strings.LowerIdempotent` | frontend/src/components/UrlList/UrlList.tsx:123-124 | lower-casing twice is lower-casing once |
| `Strings.Contains` | frontend/src/components/UrlList/UrlList.tsx:123-124 | `includes` holds exactly when the needle occurs at some index of the haystack |
| `Strings.OccursInTail` | frontend/src/components/UrlList/UrlList.tsx:123-124 | past a failed prefix test, an occurrence in the string is an occurrence in its tail, and conversely |
| `Strings.ContainsEmpty` | frontend/src/components/UrlList/UrlList.tsx:123-124 | every string includes the empty string |
| `Strings.NatString` | frontend/src/App.tsx:96 | a number renders as a non-empty digit string without a leading zero |
| `Strings.NatStringRoundTrip` | frontend/src/App.tsx:96 | reading the rendered digits back gives the number |
| `Strings.IntString` | frontend/src/App.tsx:98-99 | the rendering is the canonical decimal: a non-negative number renders as digits without a leading zero that read back as it, a negative one as "-" followed by such digits for its magnitude |

## Left out

- Network I/O is a parameter of each handler: `fetch`, `response.text()` and `JSON.parse`. A
  handler receives the status and body text, or the message of the exception that was thrown, and
  the outcome of parsing the body.
- React effects and async ordering are not modelled.
  - The page-change effect that refetches the list is not modelled.
  - The list panel's show/hide toggle with its `hasFetchedOnce` flag and the Refresh button are not
    modelled.
  - After a successful create or delete, the source awaits the `handleGetAll` captured at that
    render, which fetches the page that was current then. When that page was already 0,
    `setCurrentPage(0)` changes nothing, the effect does not run again, and the one fetch is of
    page 0, exactly as the model's `refetch` flag describes. When the page was not 0, the awaited
    fetch is of the old page, the effect also fetches page 0, and the last response wins; the model
    instead applies a single later `FetchAll` event against the reset page.
  - Overlapping requests are not modelled.
- The `isLoading`/`isSubmitting` spinner flags are not modelled. They are display state that every
  handler restores in `finally`.
- Timers are not modelled: the 3-second message clear, the 2-second "Copied" flag and the 50 ms
  scroll.
- OS and library integrations are not modelled: the theme in `localStorage`, the clipboard,
  `navigator.share` (with its two log entries), the QR code, JSX and CSS.
- The log entry's UUID and `toLocaleTimeString` timestamp are an opaque `Stamp`, because they are
  random and clock-dependent.
- `localeCompare`, `parseInt` and `Date.getTime` are opaque parameters, because their behaviour
  belongs to the platform.
- JavaScript number details are not modelled.
  - An unparsable date gives `NaN` in the source. Here it is an ordinary integer from
    `Env.timeOf`.
  - Precision limits of large numbers are not modelled.
  - An infinite comparator difference is represented by 1 or -1.
- `Strings.Lower`: only ASCII letters are folded. `toLowerCase` also applies Unicode case mapping,
  which can change a string's length.
- `App.HandleGetAll`: the list body is assumed to parse to an array of records. For a 2xx body that
  is JSON `null` or not an array, the source stores that value in `allUrls` before failing (`null`:
  reading its length throws, and the next render fails on `allUrls.filter`) or continuing (an object:
  its length is `undefined`, so the full-page estimate is taken and the fetch is logged as done).
- `App.ShortenErrorMessage`: a JSON `error` field that is present but not a string is not
  modelled. Its template rendering belongs to the platform.
- `Strings.IntString`: only integer-valued numbers are rendered; other JavaScript number formats
  are not modelled.
- `UrlList.ViewTextOrder`: this property needs `localeCompare` to be a total preorder, because
  `sort` promises nothing for an inconsistent comparator. `UrlList.View` is a permutation
  regardless.
- `Sorting.Sort`: stability is not claimed, because the page does not rely on the order of ties,
  even though the insertion sort used here is stable.
- `frontend/vite.config.ts` is build configuration and is not modelled.

=== FILE: app.dfy ===
/** The main page (`App.tsx`): the action log, the page-count estimate, the creation request and the
    state changes that follow each response of the list, create and delete endpoints. Each handler
    is modelled from the moment its response (or network failure) is known; the request itself is a
    parameter. */
module App {
  import opened Wrappers
  import opened Seqs
  import opened Strings
  import opened Host
  import UrlList

  /** `pageSize`: a state variable that is never updated. */
  const PageSize: int := 10

  /** The action log keeps this many entries. */
  const LogCapacity: nat := 5

  const RateLimitMessage := "Rate limit exceeded. Please try again later."

  // ---------------------------------------------------------------- action log

  datatype LogEntry = LogEntry(id: string, message: string, timestamp: string)

  /** The random id and the clock reading of a log entry, supplied from outside. */
  datatype Stamp = Stamp(id: string, timestamp: string)

  /** `logAction`: the new entry goes in front and at most four older entries are kept. */
  function LogAction(log: seq<LogEntry>, entry: LogEntry): (r: seq<LogEntry>)
    ensures |r| == Min(|log| + 1, LogCapacity)
    ensures r[0] == entry
    ensures r[1..] == log[..Min(LogCapacity - 1, |log|)]
  {
    [entry] + log[..Min(LogCapacity - 1, |log|)]
  }

  /** Logging `entries` one after the other, first to last. */
  function LogAll(log: seq<LogEntry>, entries: seq<LogEntry>): seq<LogEntry>
    decreases |entries|
  {
    if |entries| == 0 then log else LogAll(LogAction(log, entries[0]), entries[1..])
  }

  /** After any run of actions the log holds the most recent ones, newest first, followed by what
      remains of the earlier log, and never more than five entries. */
  lemma {:induction false} LogAllKeepsNewest(log: seq<LogEntry>, entries: seq<LogEntry>)
    requires |log| <= LogCapacity
    ensures LogAll(log, entries) == (Reverse(entries) + log)[..Min(LogCapacity, |entries| + |log|)]
    decreases |entries|
  {
    if |entries| == 0 {
      assert Reverse(entries) + log == log;
    } else {
      var first := LogAction(log, entries[0]);
      LogAllKeepsNewest(first, entries[1..]);
      var a := Reverse(entries[1..]);
      var k := Min(LogCapacity, |log| + 1);
      assert first == ([entries[0]] + log)[..k];
      TakeOfAppendTake(a, [entries[0]] + log, k, Min(LogCapacity, |entries| + |log|));
      assert Reverse(entries) == a + [entries[0]];
      assert a + ([entries[0]] + log) == Reverse(entries) + log;
    }
  }

  // ---------------------------------------------------------------- page-count estimate

  /** The estimate kept after fetching `page` and receiving `fetched` records. A short page is the
      last one; a full page means at least one more page exists, and the estimate never shrinks then. */
  function EstimateTotalPages(previous: int, fetched: nat, pageSize: int, page: int): (r: int)
    ensures fetched < pageSize ==> r == page + 1
    ensures fetched >= pageSize ==> r >= page + 2 && r >= previous
    ensures fetched >= pageSize ==> r == previous || r == page + 2
  {
    if fetched < pageSize then page + 1 else Max(previous, page + 2)
  }

  /** After a fetch the Next button is disabled exactly when the fetched page was short. */
  lemma EstimateDrivesNextButton(previous: int, fetched: nat, page: int)
    ensures UrlList.NextDisabled(page, EstimateTotalPages(previous, fetched, PageSize, page))
        <==> fetched < PageSize
  {
  }

  // ---------------------------------------------------------------- creation request

  /** The JSON body of the create call; `None` is `null` on the wire. */
  datatype CreationRequest = CreationRequest(
    url: string,
    ttlMinute: Option<int>,
    customShortenedUrl: Option<string>)

  /** The body built from the form fields. A non-numeric ttl parses to `NaN`, which serialises as
      `null`, so it is `None` here as well. */
  function BuildCreationRequest(env: Env, url: string, ttl: string, customUrl: string): (r: CreationRequest)
    ensures r.url == url
    ensures ttl == "" ==> r.ttlMinute == None
    ensures ttl != "" ==> r.ttlMinute == env.parseInt(ttl)
    ensures r.customShortenedUrl == None <==> customUrl == ""
  {
    CreationRequest(
      url,
      if ttl != "" then env.parseInt(ttl) else None,
      if customUrl != "" then Some(customUrl) else None)
  }

  /** The alias field can be read back from the request: nothing is lost or altered. */
  lemma AliasRoundTrip(env: Env, url: string, ttl: string, customUrl: string)
    ensures BuildCreationRequest(env, url, ttl, customUrl).customShortenedUrl.GetOr("") == customUrl
  {
  }

  // ---------------------------------------------------------------- responses

  datatype StatusClass = RateLimited | Ok | Failed

  /** The three-way dispatch every handler applies: 429 first, then `response.ok`. */
  function Classify(status: int): (c: StatusClass)
    ensures c == RateLimited <==> status == 429
    ensures c == Ok <==> 200 <= status <= 299
    ensures c == Failed <==> status != 429 && !(200 <= status <= 299)
  {
    if status == 429 then RateLimited
    else if 200 <= status <= 299 then Ok
    else Failed
  }

  /** A response with its body text, or the message of the exception `fetch` (or reading the body) threw. */
  datatype Response = Response(status: int, text: string) | NetworkFailure(reason: string)

  predicate Succeeded(response: Response) {
    response.Response? && Classify(response.status) == Ok
  }

  /** The outcome of `JSON.parse` on an error body of the create call: not JSON (or `null`), or any
      other JSON value, whose `error` field is given or absent. */
  datatype ErrorJson = Unparsable | Parsed(errorField: Option<string>)

  // ---------------------------------------------------------------- page state

  datatype AppState = AppState(
    url: string,
    shortUrl: string,
    ttl: string,
    customUrl: string,
    allUrls: seq<UrlList.UrlRecord>,
    message: string,
    actionLog: seq<LogEntry>,
    currentPage: int,
    estimatedTotalPages: int)

  const Initial := AppState("", "", "", "", [], "", [], 0, 1)

  /** The page index lies inside the estimated range and the log is bounded. */
  predicate Inv(s: AppState) {
    0 <= s.currentPage < s.estimatedTotalPages && |s.actionLog| <= LogCapacity
  }

  lemma InitialSatisfiesInv()
    ensures Inv(Initial)
  {
  }

  /** A handler's resulting state and whether it goes on to fetch the list again. */
  datatype Outcome = Outcome(state: AppState, refetch: bool)

  /** Only the user-visible feedback (message and log) differs between `s` and `t`. */
  predicate FeedbackOnly(s: AppState, t: AppState) {
    t == s.(message := t.message, actionLog := t.actionLog)
  }

  /** Exactly one entry with the given stamp was logged. */
  predicate LoggedOnce(s: AppState, t: AppState, stamp: Stamp, logMessage: string) {
    t.actionLog == LogAction(s.actionLog, LogEntry(stamp.id, logMessage, stamp.timestamp))
  }

  function Log(s: AppState, stamp: Stamp, logMessage: string): AppState {
    s.(actionLog := LogAction(s.actionLog, LogEntry(stamp.id, logMessage, stamp.timestamp)))
  }

  function Report(s: AppState, message: string, stamp: Stamp, logMessage: string): AppState {
    Log(s.(message := message), stamp, logMessage)
  }

  /** `handleGetAll` once the response for the current page is known; `parsed` is `JSON.parse` of its
      body: an array of records, or the message of the exception for a body that is not JSON. */
  function HandleGetAll(s: AppState, response: Response, parsed: Result<seq<UrlList.UrlRecord>, string>, stamp: Stamp): (t: AppState)
    ensures |t.actionLog| >= 1 && LoggedOnce(s, t, stamp, t.actionLog[0].message)
    ensures Succeeded(response) && parsed.Success? ==>
      && t == Log(s, stamp, "Fetched URLs (page " + IntString(s.currentPage + 1) + ")")
             .(allUrls := parsed.value,
               estimatedTotalPages := EstimateTotalPages(s.estimatedTotalPages, |parsed.value|, PageSize, s.currentPage))
    ensures !(Succeeded(response) && parsed.Success?) ==> FeedbackOnly(s, t)
    ensures response.Response? && Classify(response.status) == RateLimited ==>
      t.message == RateLimitMessage && t.actionLog[0].message == "Failed to fetch URLs: Rate limit exceeded"
    ensures response.Response? && Classify(response.status) == Failed ==>
      && t.message == "Error fetching URLs: " + IntString(response.status) + " - " + response.text
      && t.actionLog[0].message == "Failed to fetch URLs: " + IntString(response.status)
    ensures Succeeded(response) && parsed.Failure? ==>
      && t.message == "Error fetching URLs: " + parsed.error
      && t.actionLog[0].message == "Failed to fetch URLs: " + parsed.error
    ensures response.NetworkFailure? ==>
      && t.message == "Error fetching URLs: " + response.reason
      && t.actionLog[0].message == "Failed to fetch URLs: " + response.reason
  {
    match response
    case NetworkFailure(reason) =>
      Report(s, "Error fetching URLs: " + reason, stamp, "Failed to fetch URLs: " + reason)
    case Response(status, text) =>
      match Classify(status)
      case RateLimited =>
        Report(s, RateLimitMessage, stamp, "Failed to fetch URLs: Rate limit exceeded")
      case Ok =>
        (match parsed
         case Failure(e) =>
           Report(s, "Error fetching URLs: " + e, stamp, "Failed to fetch URLs: " + e)
         case Success(urls) =>
           var estimate := EstimateTotalPages(s.estimatedTotalPages, |urls|, PageSize, s.currentPage);
           Log(s, stamp, "Fetched URLs (page " + IntString(s.currentPage + 1) + ")")
             .(allUrls := urls, estimatedTotalPages := estimate))
      case Failed =>
        Report(s, "Error fetching URLs: " + IntString(status) + " - " + text,
               stamp, "Failed to fetch URLs: " + IntString(status))
  }

  /** The message shown when the create call answers with an error status. */
  function ShortenErrorMessage(status: int, text: string, errorJson: ErrorJson): (m: string)
    ensures errorJson.Unparsable? ==> m == "Error shortening URL: " + IntString(status) + " - " + text
    ensures errorJson.Parsed? ==> |m| >= 7 && m[..7] == "Error: "
    ensures errorJson.Parsed? && errorJson.errorField.GetOr("") != "" ==> m == "Error: " + errorJson.errorField.value
    ensures errorJson.Parsed? && errorJson.errorField.GetOr("") == "" ==> m == "Error: " + text
  {
    match errorJson
    case Unparsable => "Error shortening URL: " + IntString(status) + " - " + text
    case Parsed(Some(e)) => if e != "" then "Error: " + e else "Error: " + text
    case Parsed(None) => "Error: " + text
  }

  /** `handleShorten` once the create call's response is known. A success stores the new short
      link, clears the form, returns to the first page and fetches the list again. */
  function HandleShorten(env: Env, s: AppState, response: Response, errorJson: ErrorJson, stamp: Stamp): (o: Outcome)
    ensures |o.state.actionLog| >= 1 && LoggedOnce(s, o.state, stamp, o.state.actionLog[0].message)
    ensures o.refetch <==> Succeeded(response)
    ensures o.refetch ==>
      o.state == Report(s, "URL shortened successfully!", stamp, "Shortened URL: " + s.url)
                   .(shortUrl := env.frontendBaseUrl + "/redirect/" + response.text,
                     url := "", ttl := "", customUrl := "", currentPage := 0)
    ensures !o.refetch ==> FeedbackOnly(s, o.state)
    ensures response.Response? && Classify(response.status) == RateLimited ==>
      o.state.message == RateLimitMessage
      && o.state.actionLog[0].message == "Failed to shorten URL: Rate limit exceeded"
    ensures response.Response? && Classify(response.status) == Failed ==>
      && o.state.message == ShortenErrorMessage(response.status, response.text, errorJson)
      && o.state.actionLog[0].message == "Failed to shorten URL: " + IntString(response.status)
    ensures response.NetworkFailure? ==>
      && o.state.message == "Error connecting to server: " + response.reason
      && o.state.actionLog[0].message == "Failed to shorten URL: " + response.reason
  {
    match response
    case NetworkFailure(reason) =>
      Outcome(Report(s, "Error connecting to server: " + reason, stamp, "Failed to shorten URL: " + reason), false)
    case Response(status, text) =>
      match Classify(status)
      case RateLimited =>
        Outcome(Report(s, RateLimitMessage, stamp, "Failed to shorten URL: Rate limit exceeded"), false)
      case Ok =>
        var t := Report(s, "URL shortened successfully!", stamp, "Shortened URL: " + s.url);
        Outcome(t.(shortUrl := env.frontendBaseUrl + "/redirect/" + text,
                   url := "", ttl := "", customUrl := "", currentPage := 0), true)
      case Failed =>
        Outcome(Report(s, ShortenErrorMessage(status, text, errorJson), stamp,
                       "Failed to shorten URL: " + IntString(status)), false)
  }

  /** `handleDelete` once the delete call's response is known. A success returns to the first page
      and fetches the list again; the deleted row is not removed locally. */
  function HandleDelete(s: AppState, shortenedUrl: string, response: Response, stamp: Stamp): (o: Outcome)
    ensures |o.state.actionLog| >= 1 && LoggedOnce(s, o.state, stamp, o.state.actionLog[0].message)
    ensures o.refetch <==> Succeeded(response)
    ensures o.refetch ==>
      o.state == Report(s, "URL deleted successfully", stamp, "Deleted URL: " + shortenedUrl).(currentPage := 0)
    ensures !o.refetch ==> FeedbackOnly(s, o.state)
    ensures response.Response? && Classify(response.status) == RateLimited ==>
      o.state.message == RateLimitMessage
      && o.state.actionLog[0].message == "Failed to delete URL: Rate limit exceeded"
    ensures response.Response? && Classify(response.status) == Failed ==>
      && o.state.message == "Error deleting URL: " + IntString(response.status) + " - " + response.text
      && o.state.actionLog[0].message == "Failed to delete URL: " + IntString(response.status)
    ensures response.NetworkFailure? ==>
      && o.state.message == "Error deleting URL: " + response.reason
      && o.state.actionLog[0].message == "Failed to delete URL: " + response.reason
  {
    match response
    case NetworkFailure(reason) =>
      Outcome(Report(s, "Error deleting URL: " + reason, stamp, "Failed to delete URL: " + reason), false)
    case Response(status, text) =>
      match Classify(status)
      case RateLimited =>
        Outcome(Report(s, RateLimitMessage, stamp, "Failed to delete URL: Rate limit exceeded"), false)
      case Ok =>
        Outcome(Report(s, "URL deleted successfully", stamp, "Deleted URL: " + shortenedUrl).(currentPage := 0), true)
      case Failed =>
        Outcome(Report(s, "Error deleting URL: " + IntString(status) + " - " + text,
                       stamp, "Failed to delete URL: " + IntString(status)), false)
  }

  // ---------------------------------------------------------------- the page as a state machine

  /** What can happen to the page: typing into the form, a response arriving, a paging button. */
  datatype Event =
    | EditForm(url: string, ttl: string, customUrl: string)
    | FetchAll(response: Response, parsed: Result<seq<UrlList.UrlRecord>, string>, stamp: Stamp)
    | Shorten(response: Response, errorJson: ErrorJson, stamp: Stamp)
    | Delete(shortenedUrl: string, response: Response, stamp: Stamp)
    | NextPage
    | PrevPage

  /** One event. Typing changes only the form fields; a paging button changes only the page. */
  function Apply(env: Env, s: AppState, e: Event): (t: AppState)
    ensures e.EditForm? ==> t == s.(url := e.url, ttl := e.ttl, customUrl := e.customUrl)
    ensures e.NextPage? ==> t == s.(currentPage := t.currentPage)
                            && t.currentPage == UrlList.NextPage(s.currentPage, s.estimatedTotalPages)
    ensures e.PrevPage? ==> t == s.(currentPage := t.currentPage)
                            && t.currentPage == UrlList.PrevPage(s.currentPage)
  {
    match e
    case EditForm(url, ttl, customUrl) => s.(url := url, ttl := ttl, customUrl := customUrl)
    case FetchAll(response, parsed, stamp) => HandleGetAll(s, response, parsed, stamp)
    case Shorten(response, errorJson, stamp) => HandleShorten(env, s, response, errorJson, stamp).state
    case Delete(shortenedUrl, response, stamp) => HandleDelete(s, shortenedUrl, response, stamp).state
    case NextPage => s.(currentPage := UrlList.NextPage(s.currentPage, s.estimatedTotalPages))
    case PrevPage => s.(currentPage := UrlList.PrevPage(s.currentPage))
  }

  function Run(env: Env, s: AppState, events: seq<Event>): AppState
    decreases |events|
  {
    if |events| == 0 then s else Run(env, Apply(env, s, events[0]), events[1..])
  }

  /** Every event keeps the page inside the estimated range and the log bounded. */
  lemma ApplyPreservesInv(env: Env, s: AppState, e: Event)
    requires Inv(s)
    ensures Inv(Apply(env, s, e))
  {
  }

  /** Every state reachable from a valid state satisfies the invariant. */
  lemma {:induction false} RunPreservesInv(env: Env, s: AppState, events: seq<Event>)
    requires Inv(s)
    ensures Inv(Run(env, s, events))
    decreases |events|
  {
    if |events| > 0 {
      ApplyPreservesInv(env, s, events[0]);
      RunPreservesInv(env, Apply(env, s, events[0]), events[1..]);
    }
  }
}

=== FILE: host.dfy ===
/** What the components take from the JavaScript platform and from modules outside this model.
    Each is an opaque parameter: the model assumes nothing about it beyond what a lemma requires. */
module Host {
  import opened Wrappers

  datatype Env = Env(
    /** `a.localeCompare(b)`: negative, zero or positive. */
    localeCompare: (string, string) -> int,
    /** `parseInt(s)`: `None` stands for `NaN`. */
    parseInt: string -> Option<int>,
    /** `new Date(s).getTime()` for a non-empty expiration string. */
    timeOf: string -> int,
    /** `BASE_FRONTEND_URL` from the constants module. */
    frontendBaseUrl: string)
}

=== FILE: seqs.dfy ===
/** Small facts about integers and sequences shared by the rest of the model. */
module Seqs {

  function Min(a: int, b: int): int {
    if a <= b then a else b
  }

  function Max(a: int, b: int): int {
    if a >= b then a else b
  }

  function Reverse<T>(s: seq<T>): (r: seq<T>)
    ensures |r| == |s|
    ensures forall i :: 0 <= i < |s| ==> r[i] == s[|s| - 1 - i]
  {
    if |s| == 0 then [] else Reverse(s[1..]) + [s[0]]
  }

  /** `sub` can be obtained from `s` by deleting elements, keeping the order of the rest. */
  predicate IsSubsequence<T(==)>(sub: seq<T>, s: seq<T>)
    decreases |s|
  {
    || |sub| == 0
    || (&& |s| > 0
        && ((sub[0] == s[0] && IsSubsequence(sub[1..], s[1..])) || IsSubsequence(sub, s[1..])))
  }

  /** Cutting `b` short before appending it does not matter when the prefix taken afterwards does
      not reach past the cut. */
  lemma TakeOfAppendTake<T>(a: seq<T>, b: seq<T>, k: nat, m: nat)
    requires k <= |b| && m <= |a| + k
    ensures (a + b[..k])[..m] == (a + b)[..m]
  {
  }
}

=== FILE: sorting.dfy ===
/** `Array.prototype.sort` with a comparator: a comparator answers a negative number when its first
    argument belongs first, zero when the two tie, and a positive number otherwise. The sort is
    modelled by a stable insertion sort. */
module Sorting {

  /** Any two values can be placed in some order. */
  ghost predicate Total<T(!new)>(cmp: (T, T) -> int) {
    forall a, b :: cmp(a, b) <= 0 || cmp(b, a) <= 0
  }

  /** "May come before" is transitive. */
  ghost predicate Transitive<T(!new)>(cmp: (T, T) -> int) {
    forall a, b, c :: cmp(a, b) <= 0 && cmp(b, c) <= 0 ==> cmp(a, c) <= 0
  }

  /** "May come before" (a non-positive answer) is a total preorder, which every consistent
      comparator induces. */
  ghost predicate Consistent<T(!new)>(cmp: (T, T) -> int) {
    Total(cmp) && Transitive(cmp)
  }

  /** No element is placed after one it must come after. */
  ghost predicate SortedBy<T>(cmp: (T, T) -> int, s: seq<T>) {
    forall i, j :: 0 <= i < j < |s| ==> cmp(s[i], s[j]) <= 0
  }

  /** Inserts `x` in front of the first element it may precede. */
  function Insert<T>(x: T, s: seq<T>, cmp: (T, T) -> int): (r: seq<T>)
    ensures |r| == |s| + 1
    ensures multiset(r) == multiset(s) + multiset{x}
  {
    if |s| == 0 then [x]
    else if cmp(x, s[0]) <= 0 then [x] + s
    else
      assert s == [s[0]] + s[1..];
      [s[0]] + Insert(x, s[1..], cmp)
  }

  /** The sorted copy of `s` (`s.slice().sort(cmp)`): the same elements, with the same multiplicities. */
  function Sort<T>(s: seq<T>, cmp: (T, T) -> int): (r: seq<T>)
    ensures |r| == |s|
    ensures multiset(r) == multiset(s)
  {
    if |s| == 0 then []
    else
      assert s == [s[0]] + s[1..];
      Insert(s[0], Sort(s[1..], cmp), cmp)
  }

  /** Inserting into a sorted sequence keeps it sorted. */
  lemma {:induction false} InsertSorted<T(!new)>(x: T, s: seq<T>, cmp: (T, T) -> int)
    requires Consistent(cmp)
    requires SortedBy(cmp, s)
    ensures SortedBy(cmp, Insert(x, s, cmp))
  {
    if |s| > 0 && cmp(x, s[0]) > 0 {
      var rest := Insert(x, s[1..], cmp);
      InsertSorted(x, s[1..], cmp);
      assert cmp(s[0], x) <= 0;
      forall k | 0 <= k < |rest|
        ensures cmp(s[0], rest[k]) <= 0
      {
        assert rest[k] in multiset(rest);
        assert rest[k] in multiset(s[1..]) + multiset{x};
        if rest[k] != x {
          assert rest[k] in s[1..];
        }
      }
      assert Insert(x, s, cmp) == [s[0]] + rest;
    } else if |s| > 0 {
      assert cmp(x, s[0]) <= 0;
      assert Insert(x, s, cmp) == [x] + s;
    }
  }

  /** Under a consistent comparator the sorted copy is ordered by it. */
  lemma {:induction false} SortSorted<T(!new)>(s: seq<T>, cmp: (T, T) -> int)
    requires Consistent(cmp)
    ensures SortedBy(cmp, Sort(s, cmp))
  {
    if |s| > 0 {
      SortSorted(s[1..], cmp);
      InsertSorted(s[0], Sort(s[1..], cmp), cmp);
    }
  }
}

=== FILE: strings.dfy ===
/** The string operations the components rely on: `toLowerCase`, `includes` and the
    decimal rendering of a number inside a template literal. */
module Strings {

  /** Case folding of one character; only the ASCII letters are folded. */
  function LowerChar(c: char): char {
    if 'A' <= c <= 'Z' then (c as int + 32) as char else c
  }

  /** `s.toLowerCase()`, restricted to ASCII case folding. */
  function Lower(s: string): (r: string)
    ensures |r| == |s|
    ensures forall i :: 0 <= i < |s| ==> r[i] == LowerChar(s[i])
    ensures forall i :: 0 <= i < |r| ==> !('A' <= r[i] <= 'Z')
  {
    seq(|s|, i requires 0 <= i < |s| => LowerChar(s[i]))
  }

  /** Folding twice is folding once. */
  lemma LowerIdempotent(s: string)
    ensures Lower(Lower(s)) == Lower(s)
  {
  }

  predicate IsPrefix(p: string, s: string) {
    |p| <= |s| && s[..|p|] == p
  }

  /** `needle` occurs in `hay` starting at index `i`. */
  ghost predicate OccursAt(hay: string, needle: string, i: int) {
    0 <= i && i + |needle| <= |hay| && hay[i..i + |needle|] == needle
  }

  /** When `needle` is not a prefix of a non-empty `hay`, it occurs in `hay` exactly when it occurs
      in `hay` without its first character. */
  lemma OccursInTail(hay: string, needle: string)
    requires |hay| > 0 && !IsPrefix(needle, hay)
    ensures (exists i :: OccursAt(hay, needle, i)) <==> (exists i :: OccursAt(hay[1..], needle, i))
  {
    if exists i :: OccursAt(hay, needle, i) {
      var i :| OccursAt(hay, needle, i);
      assert i != 0;
      assert hay[1..][i - 1..i - 1 + |needle|] == hay[i..i + |needle|];
      assert OccursAt(hay[1..], needle, i - 1);
    }
    if exists i :: OccursAt(hay[1..], needle, i) {
      var i :| OccursAt(hay[1..], needle, i);
      assert hay[1..][i..i + |needle|] == hay[i + 1..i + 1 + |needle|];
      assert OccursAt(hay, needle, i + 1);
    }
  }

  /** `hay.includes(needle)`, checked suffix by suffix; it holds exactly when `needle` occurs in
      `hay` at some index. */
  function Contains(hay: string, needle: string): (b: bool)
    ensures b <==> exists i :: OccursAt(hay, needle, i)
    decreases |hay|
  {
    if IsPrefix(needle, hay) then
      assert OccursAt(hay, needle, 0);
      true
    else if |hay| == 0 then
      assert forall i :: !OccursAt(hay, needle, i);
      false
    else
      OccursInTail(hay, needle);
      Contains(hay[1..], needle)
  }

  /** Every string includes the empty string. */
  lemma ContainsEmpty(hay: string)
    ensures Contains(hay, "")
  {
  }

  function DigitChar(d: int): (c: char)
    requires 0 <= d < 10
    ensures '0' <= c <= '9'
  {
    ('0' as int + d) as char
  }

  predicate IsDigits(s: string) {
    forall i :: 0 <= i < |s| ==> '0' <= s[i] <= '9'
  }

  /** The decimal rendering of a non-negative integer: digits only, never empty, no leading zero. */
  function NatString(n: nat): (r: string)
    ensures |r| >= 1 && IsDigits(r)
    ensures |r| > 1 ==> r[0] != '0'
    ensures n < 10 <==> |r| == 1
  {
    if n < 10 then [DigitChar(n)] else NatString(n / 10) + [DigitChar(n % 10)]
  }

  /** The value a string of decimal digits denotes. */
  function DigitsValue(s: string): nat
    requires IsDigits(s)
  {
    if |s| == 0 then 0 else DigitsValue(s[..|s| - 1]) * 10 + (s[|s| - 1] as int - '0' as int)
  }

  /** Reading back the rendering of `n` yields `n`. */
  lemma {:induction false} NatStringRoundTrip(n: nat)
    ensures DigitsValue(NatString(n)) == n
  {
    if n >= 10 {
      var r := NatString(n);
      assert r[..|r| - 1] == NatString(n / 10);
      NatStringRoundTrip(n / 10);
    }
  }

  /** `${i}` for an integer-valued number: an optional minus sign followed by the canonical digits
      of the magnitude (no leading zero), which read back as that magnitude. */
  function IntString(i: int): (r: string)
    ensures |r| >= 1
    ensures i >= 0 ==> IsDigits(r) && DigitsValue(r) == i
    ensures i >= 0 && |r| > 1 ==> r[0] != '0'
    ensures i < 0 ==> |r| >= 2 && r[0] == '-' && IsDigits(r[1..]) && DigitsValue(r[1..]) == -i
    ensures i < 0 && |r| > 2 ==> r[1] != '0'
  {
    if i < 0 then
      NatStringRoundTrip(-i);
      var r := "-" + NatString(-i);
      assert r[1..] == NatString(-i);
      r
    else
      NatStringRoundTrip(i);
      NatString(i)
  }
}

=== FILE: url_list.dfy ===
/** The list panel (`UrlList.tsx`): search filter, sort order, sort-key toggling and paging. */
module UrlList {
  import opened Wrappers
  import opened Seqs
  import opened Strings
  import opened Sorting
  import opened Host

  /** One shortened link as the list endpoint returns it. */
  datatype UrlRecord = UrlRecord(
    shortenedUrl: string,
    url: string,
    clickCount: string,
    expirationTime: string)

  datatype SortKey = OriginalUrl | ShortUrl | ClickCount | ExpirationTime {
    /** Keys compared as strings with `localeCompare`. */
    predicate IsText() {
      OriginalUrl? || ShortUrl?
    }
  }

  /** The panel's sort selection. */
  datatype SortState = SortState(key: SortKey, ascending: bool)

  // ---------------------------------------------------------------- filter

  /** A record is shown when either URL contains the search term, ignoring case. */
  function Matches(rec: UrlRecord, term: string): (b: bool)
    ensures b <==> ((exists i :: OccursAt(Lower(rec.url), Lower(term), i))
                    || (exists i :: OccursAt(Lower(rec.shortenedUrl), Lower(term), i)))
  {
    Contains(Lower(rec.url), Lower(term)) || Contains(Lower(rec.shortenedUrl), Lower(term))
  }

  /** The records that match the search term, in their original order and multiplicity. */
  function Filter(records: seq<UrlRecord>, term: string): (r: seq<UrlRecord>)
    ensures IsSubsequence(r, records)
    ensures forall x :: x in r <==> x in records && Matches(x, term)
  {
    if |records| == 0 then []
    else
      var rest := Filter(records[1..], term);
      if Matches(records[0], term) then
        assert ([records[0]] + rest)[1..] == rest;
        [records[0]] + rest
      else
        rest
  }

  /** The filter keeps every copy of a matching record and no copy of any other. */
  lemma {:induction false} FilterCount(records: seq<UrlRecord>, term: string, x: UrlRecord)
    ensures multiset(Filter(records, term))[x] == if Matches(x, term) then multiset(records)[x] else 0
  {
    if |records| > 0 {
      FilterCount(records[1..], term, x);
      assert records == [records[0]] + records[1..];
    }
  }

  /** An empty search term keeps every record. */
  lemma {:induction false} FilterEmptyTerm(records: seq<UrlRecord>)
    ensures Filter(records, "") == records
  {
    if |records| > 0 {
      ContainsEmpty(Lower(records[0].url));
      FilterEmptyTerm(records[1..]);
      assert records == [records[0]] + records[1..];
    }
  }

  /** The case of the search term does not matter: terms that fold to the same string select the same records. */
  lemma {:induction false} FilterIgnoresTermCase(records: seq<UrlRecord>, term1: string, term2: string)
    requires Lower(term1) == Lower(term2)
    ensures Filter(records, term1) == Filter(records, term2)
  {
    if |records| > 0 {
      FilterIgnoresTermCase(records[1..], term1, term2);
    }
  }

  // ---------------------------------------------------------------- comparator

  function KeyText(rec: UrlRecord, key: SortKey): string
    requires key.IsText()
  {
    if key == OriginalUrl then rec.url else rec.shortenedUrl
  }

  /** `parseInt(clickCount) || 0`: a count that does not parse (NaN) sorts as zero. */
  function ClickValue(env: Env, rec: UrlRecord): (n: int)
    ensures env.parseInt(rec.clickCount).None? ==> n == 0
    ensures env.parseInt(rec.clickCount).Some? ==> n == env.parseInt(rec.clickCount).value
  {
    env.parseInt(rec.clickCount).GetOr(0)
  }

  /** An expiration instant; a record without one never expires (`Infinity`). */
  datatype Instant = At(millis: int) | Never

  function ExpiryOf(env: Env, rec: UrlRecord): (t: Instant)
    ensures t == Never <==> rec.expirationTime == ""
    ensures t.At? ==> t.millis == env.timeOf(rec.expirationTime)
  {
    if rec.expirationTime == "" then Never else At(env.timeOf(rec.expirationTime))
  }

  /** The sign-relevant value of `a - b` for two instants. `Infinity - Infinity` is `NaN`, which the
      sort treats as a tie; an infinite difference is represented by 1 or -1. */
  function InstantDiff(a: Instant, b: Instant): (d: int)
    ensures d <= 0 <==> (b == Never || (a.At? && a.millis <= b.millis))
  {
    match (a, b)
    case (At(x), At(y)) => x - y
    case (Never, Never) => 0
    case (Never, At(_)) => 1
    case (At(_), Never) => -1
  }

  /** The comparator passed to `sort`. A non-positive answer means `a` may come before `b`:
      click counts (non-numeric as 0) in the chosen direction; for expirations, a record without one
      after every dated record when ascending and before them when descending, dated records by
      time; for the URL fields, `localeCompare` order, reversed when descending. */
  function Compare(env: Env, st: SortState, a: UrlRecord, b: UrlRecord): (c: int)
    ensures st.key == ClickCount ==>
      (c <= 0 <==> if st.ascending then ClickValue(env, a) <= ClickValue(env, b)
                   else ClickValue(env, a) >= ClickValue(env, b))
    ensures st.key == ExpirationTime && st.ascending ==>
      (c <= 0 <==> b.expirationTime == ""
                   || (a.expirationTime != ""
                       && env.timeOf(a.expirationTime) <= env.timeOf(b.expirationTime)))
    ensures st.key == ExpirationTime && !st.ascending ==>
      (c <= 0 <==> a.expirationTime == ""
                   || (b.expirationTime != ""
                       && env.timeOf(a.expirationTime) >= env.timeOf(b.expirationTime)))
    ensures st.key.IsText() ==>
      (c <= 0 <==> if st.ascending then env.localeCompare(KeyText(a, st.key), KeyText(b, st.key)) <= 0
                   else env.localeCompare(KeyText(b, st.key), KeyText(a, st.key)) <= 0)
  {
    match st.key
    case ClickCount =>
      var x, y := ClickValue(env, a), ClickValue(env, b);
      if st.ascending then x - y else y - x
    case ExpirationTime =>
      var x, y := ExpiryOf(env, a), ExpiryOf(env, b);
      if st.ascending then InstantDiff(x, y) else InstantDiff(y, x)
    case _ =>
      var x, y := KeyText(a, st.key), KeyText(b, st.key);
      if st.ascending then env.localeCompare(x, y) else env.localeCompare(y, x)
  }

  function Comparator(env: Env, st: SortState): (UrlRecord, UrlRecord) -> int {
    (a: UrlRecord, b: UrlRecord) => Compare(env, st, a, b)
  }

  /** Descending order is ascending order with the arguments swapped, for every key. */
  lemma DescendingIsReverse(env: Env, key: SortKey, a: UrlRecord, b: UrlRecord)
    ensures Compare(env, SortState(key, false), a, b) == Compare(env, SortState(key, true), b, a)
  {
  }

  /** The numeric keys always give a consistent comparator; the text keys do when `localeCompare` does. */
  lemma ComparatorConsistent(env: Env, st: SortState)
    requires st.key.IsText() ==> Consistent(env.localeCompare)
    ensures Consistent(Comparator(env, st))
  {
  }

  // ---------------------------------------------------------------- the displayed list

  /** `filteredAndSortedUrls`: the matching records, sorted by the current selection. The input is a
      value and is left as it was. */
  function View(env: Env, records: seq<UrlRecord>, term: string, st: SortState): (r: seq<UrlRecord>)
    ensures multiset(r) == multiset(Filter(records, term))
    ensures forall x :: x in r <==> x in records && Matches(x, term)
  {
    var r := Sort(Filter(records, term), Comparator(env, st));
    assert forall x :: x in r <==> x in multiset(r);
    r
  }

  lemma ViewSorted(env: Env, records: seq<UrlRecord>, term: string, st: SortState)
    requires st.key.IsText() ==> Consistent(env.localeCompare)
    ensures SortedBy(Comparator(env, st), View(env, records, term, st))
  {
    ComparatorConsistent(env, st);
    SortSorted(Filter(records, term), Comparator(env, st));
  }

  /** Sorting by click count orders the parsed counts, non-numeric counts as zero. */
  lemma ViewClickCountOrder(env: Env, records: seq<UrlRecord>, term: string, ascending: bool)
    ensures var r := View(env, records, term, SortState(ClickCount, ascending));
      forall i, j :: 0 <= i < j < |r| ==>
        if ascending then ClickValue(env, r[i]) <= ClickValue(env, r[j])
        else ClickValue(env, r[i]) >= ClickValue(env, r[j])
  {
    var st := SortState(ClickCount, ascending);
    ViewSorted(env, records, term, st);
    var r := View(env, records, term, st);
    forall i, j | 0 <= i < j < |r|
      ensures if ascending then ClickValue(env, r[i]) <= ClickValue(env, r[j])
              else ClickValue(env, r[i]) >= ClickValue(env, r[j])
    {
      assert Comparator(env, st)(r[i], r[j]) <= 0;
    }
  }

  /** What one ordered pair means under the expiration comparator. */
  predicate ExpiryOrdered(env: Env, ascending: bool, a: UrlRecord, b: UrlRecord) {
    && (ascending && a.expirationTime == "" ==> b.expirationTime == "")
    && (!ascending && b.expirationTime == "" ==> a.expirationTime == "")
    && (a.expirationTime != "" && b.expirationTime != "" ==>
          if ascending then env.timeOf(a.expirationTime) <= env.timeOf(b.expirationTime)
          else env.timeOf(a.expirationTime) >= env.timeOf(b.expirationTime))
  }

  lemma ExpiryPairOrdered(env: Env, ascending: bool, a: UrlRecord, b: UrlRecord)
    requires Compare(env, SortState(ExpirationTime, ascending), a, b) <= 0
    ensures ExpiryOrdered(env, ascending, a, b)
  {
  }

  /** Sorting by expiration: records without an expiration come after every dated record when
      ascending and before every dated record when descending; dated records are ordered by time. */
  lemma ViewExpirationOrder(env: Env, records: seq<UrlRecord>, term: string, ascending: bool)
    ensures var r := View(env, records, term, SortState(ExpirationTime, ascending));
      forall i, j :: 0 <= i < j < |r| ==> ExpiryOrdered(env, ascending, r[i], r[j])
  {
    var st := SortState(ExpirationTime, ascending);
    ViewSorted(env, records, term, st);
    var r := View(env, records, term, st);
    forall i, j | 0 <= i < j < |r|
      ensures ExpiryOrdered(env, ascending, r[i], r[j])
    {
      assert Comparator(env, st)(r[i], r[j]) <= 0;
      ExpiryPairOrdered(env, ascending, r[i], r[j]);
    }
  }

  /** Sorting by a URL field orders it by `localeCompare`, reversed when descending. */
  lemma ViewTextOrder(env: Env, records: seq<UrlRecord>, term: string, key: SortKey, ascending: bool)
    requires key.IsText()
    requires Consistent(env.localeCompare)
    ensures var r := View(env, records, term, SortState(key, ascending));
      forall i, j :: 0 <= i < j < |r| ==>
        if ascending then env.localeCompare(KeyText(r[i], key), KeyText(r[j], key)) <= 0
        else env.localeCompare(KeyText(r[j], key), KeyText(r[i], key)) <= 0
  {
    var st := SortState(key, ascending);
    ViewSorted(env, records, term, st);
    var r := View(env, records, term, st);
    forall i, j | 0 <= i < j < |r|
      ensures if ascending then env.localeCompare(KeyText(r[i], key), KeyText(r[j], key)) <= 0
              else env.localeCompare(KeyText(r[j], key), KeyText(r[i], key)) <= 0
    {
      assert Comparator(env, st)(r[i], r[j]) <= 0;
    }
  }

  /** An example: a count of "x" sorts as 0, before a count of "5". */
  lemma ClickCountExample(env: Env)
    requires env.parseInt("5") == Some(5) && env.parseInt("x") == None
    ensures var a := UrlRecord("a", "a.com", "5", "");
            var b := UrlRecord("b", "b.com", "x", "");
            View(env, [a, b], "", SortState(ClickCount, true)) == [b, a]
  {
  }

  // ---------------------------------------------------------------- sort-key toggling

  /** `handleSort`: the chosen key becomes the sort key; reselecting the active key flips the
      direction, choosing another key starts ascending. */
  function HandleSort(st: SortState, key: SortKey): (r: SortState)
    ensures r.key == key
    ensures key == st.key ==> r.ascending != st.ascending
    ensures key != st.key ==> r.ascending
  {
    if key == st.key then st.(ascending := !st.ascending) else SortState(key, true)
  }

  /** Reselecting the active key twice restores the selection. */
  lemma HandleSortTwiceRestores(st: SortState)
    ensures HandleSort(HandleSort(st, st.key), st.key) == st
  {
  }

  /** Choosing a new key, then the same key twice more, returns to that key ascending:
      the same order as the first choice gave. */
  lemma HandleSortCycle(st: SortState, key: SortKey)
    ensures key != st.key ==> HandleSort(st, key) == SortState(key, true)
    ensures key != st.key ==>
              HandleSort(HandleSort(HandleSort(st, key), key), key) == HandleSort(st, key)
  {
  }

  // ---------------------------------------------------------------- paging

  /** `handlePrevPage`. */
  function PrevPage(page: int): (r: int)
    ensures r >= 0
    ensures page > 0 ==> r == page - 1
    ensures page <= 0 ==> r == 0
  {
    Max(0, page - 1)
  }

  /** `handleNextPage`. */
  function NextPage(page: int, estimatedTotalPages: int): (r: int)
    ensures r <= estimatedTotalPages - 1
    ensures page < estimatedTotalPages - 1 ==> r == page + 1
    ensures page >= estimatedTotalPages - 1 ==> r == estimatedTotalPages - 1
  {
    Min(page + 1, estimatedTotalPages - 1)
  }

  /** The Previous button's `disabled` condition: it holds exactly when pressing the button would
      leave the page where it is. */
  function PrevDisabled(page: int): (b: bool)
    ensures b <==> PrevPage(page) == page
  {
    page == 0
  }

  /** The Next button's `disabled` condition: it holds exactly when pressing the button would not
      advance the page. */
  function NextDisabled(page: int, estimatedTotalPages: int): (b: bool)
    ensures b <==> NextPage(page, estimatedTotalPages) <= page
  {
    page >= estimatedTotalPages - 1
  }

  /** Whenever the Next button is enabled, pressing it advances by exactly one page. */
  lemma NextEnabledAdvancesByOne(page: int, estimatedTotalPages: int)
    ensures !NextDisabled(page, estimatedTotalPages) ==> NextPage(page, estimatedTotalPages) == page + 1
  {
  }

  /** Both buttons keep the page inside `[0, estimatedTotalPages)`. */
  lemma PagingStaysInRange(page: int, estimatedTotalPages: int)
    requires 0 <= page < estimatedTotalPages
    ensures 0 <= PrevPage(page) < estimatedTotalPages
    ensures 0 <= NextPage(page, estimatedTotalPages) < estimatedTotalPages
  {
  }
}

=== FILE: wrappers.dfy ===
/** Failure-carrying values used where the application receives something that may be absent
    (a parsed number, an optional request field) or an outcome that may be an error. */
module Wrappers {

  datatype Option<+T> = None | Some(value: T) {

    /** The carried value, or `default` when there is none. */
    function GetOr(default: T): T {
      match this
      case Some(v) => v
      case None => default
    }
  }

  datatype Result<+R, +E> = Success(value: R) | Failure(error: E)
}
